=== FILE: README.md ===
# TimeAddiction: a verified model of the day log

TimeAddiction is an iOS app that keeps a log of **time blocks** for each
**Day**. A time block is started by name. It can be *lapped*: the running
lap (a *sub-block*) is closed and a new lap opens, named from the earlier
ones ("1번째 판", "2번째 판", …). The block is *ended* when the work is done.
This project models that core in Dafny:

- `Digits`: reading a run of ASCII digits as a number (`Int(_:)`), and
  rendering a number back (`String(_:)`).
- `LapName`: the regular expression that names laps (digits, then
  "번째", then spaces, then an optional description), the leftmost
  `firstMatch` semantics, and the derivation of the next lap's name.
- `Ordering`: the stable sort by startTime used for the lap list
  (`refreshSubBlocks`), for `endTimeBlock` in the main view, and for the
  main list's fetch.
- `TimeBlocks`: the `TimeBlock` entity, its initialiser defaults and
  `duration`. It also holds ending and lapping, the detail view's
  button gating, and the root invariant that these operations keep. The
  invariant: a root has laps, every lap but the last by startTime is
  closed, and the root is closed exactly when its last lap is.
- `Days`: the `DayBlock` entity and the store of Days keyed by date. It
  holds day creation (`checkAndAddDayBlock`), the adding sheet
  (`addTimeBlock`, the blank-name guard, the title reset on dismissal),
  deletion, the list for a selected date, and the main bottom bar's
  end-versus-add gating.

Time is an integer instant. The clock (`Date.now`) is always an argument.
In a lap, the closing instant `now` and the new lap's start `newStart`
are separate arguments, because the source reads the clock twice. The
back references `parent` and `parentDay` are not stored. A block nested
in another block's `subBlocks` has that block as parent. A block held in
a Day's `timeBlocks` has that Day as parentDay. So both inverse rules
hold by construction.

A lap name that does not parse does not reset the count:
`compactMap { firstMatch }.last` skips it and uses the last name that
parses, and the fallback `("", 0, "판")` is used only when no name
parses (`LapName.NonMatchingNameSkipped`, `LapName.NextLapNameFallback`).

## Model

| member | source | states |
|---|---|---|
| Digits.ValueOfRender | TimeAddiction/TimeBlockView.swift:114 | the decimal text written for a lap count reads back as that count |
| Digits.RenderOfValue | TimeAddiction/TimeBlockView.swift:123-127 | a canonical digit run (no leading zero) is exactly the rendering of the number it is read as |
| LapName.MatchFrom | TimeAddiction/TimeBlockView.swift:121-137 | a scan from position i returns a match of digits + "번째" + spaces + optional rest that starts at or after i, with no match starting between i and it; when it returns none, no match starts at or after i |
| LapName.NoPrefixAt | TimeAddiction/TimeBlockView.swift:123-128 | when the maximal digit run at a position is empty or not followed by "번째", no match starts there: the greedy digits cannot usefully stop early |
| LapName.FirstMatch | TimeAddiction/TimeBlockView.swift:110 | the result is the leftmost match (digit run value, captured description) exactly when some match exists, and None exactly when the name contains no match |
| LapName.FirstMatchUnique | TimeAddiction/TimeBlockView.swift:110 | the leftmost-match characterisation has only one solution, so the match reported is determined by the name |
| LapName.TailCapturesUnique | TimeAddiction/TimeBlockView.swift:129-134 | after the suffix, the greedy spaces and the optional capture split the remaining text in only one way |
| LapName.CapturedIsCarried | TimeAddiction/TimeBlockView.swift:129-134 | a captured description is non-empty and does not start with a space |
| LapName.LastMatchIndex | TimeAddiction/TimeBlockView.swift:109-111 | picks the last name that contains a match: every later name has none; None only when no name matches |
| LapName.LastMatchIndexIs | TimeAddiction/TimeBlockView.swift:109-111 | any position whose name matches, with no match after it, is the one picked |
| LapName.Previous | TimeAddiction/TimeBlockView.swift:109-111 | the description carried into the next name is absent or a non-empty text that does not start with U+0020, the shape the matcher can capture again |
| LapName.NextLapNameFallback | TimeAddiction/TimeBlockView.swift:111-117 | when no lap name contains a match (also for no laps), the new lap is called exactly "1번째 판" |
| LapName.NextLapNameFromLastMatch | TimeAddiction/TimeBlockView.swift:109-117 | when the last matching name has count n and description d, the new lap is "(n+1)번째", plus " " + d if d was captured |
| LapName.NonMatchingNameSkipped | TimeAddiction/TimeBlockView.swift:109-111 | appending a name without a match leaves the next name unchanged: such names do not reset the count |
| LapName.ParseFormat | TimeAddiction/TimeBlockView.swift:114-137 | a name the app writes, "(n)번째" with an optional " " + description, parses back from position 0 to count n and that description |
| LapName.ParseSpaced | TimeAddiction/TimeBlockView.swift:122-135 | digits + "번째" + any number of spaces + a description parse to that count and description, so the spaces are dropped |
| LapName.SpacesNormalised | TimeAddiction/TimeBlockView.swift:114-135 | a last name "k번째" followed by any number of spaces and a description gives "(k+1)번째 description"; with spaces only, no description and no trailing space |
| LapName.NextLapNameParses | TimeAddiction/TimeBlockView.swift:109-137 | every generated lap name contains a match, and it parses to the count and description it was built from |
| LapName.LapAfterLap | TimeAddiction/TimeBlockView.swift:101-117 | lapping twice counts up by one each time and keeps the description |
| LapName.LastNameDecides | TimeAddiction/TimeBlockView.swift:109-117 | a matching name appended last decides the next name, whatever came before |
| LapName.FirstLapNameParses | TimeAddiction/TimeBlockView.swift:111-117 | "1번째 판" parses to count 1 and description "판", so it is where the fallback and the counting meet |
| LapName.NoDigitNoMatch | TimeAddiction/TimeBlockView.swift:124 | a name without an ASCII digit never matches |
| LapName.ExampleStandard | TimeAddiction/TimeBlockView.swift:109-117 | ["1번째", "2번째 결승"] names the next lap "3번째 결승" |
| LapName.ExampleSkipsCustom | TimeAddiction/TimeBlockView.swift:109-117 | ["1번째 판", "custom"] names the next lap "2번째 판": the unmatched name does not reset the count |
| LapName.ExampleFallback | TimeAddiction/TimeBlockView.swift:111 | ["custom"] and [] both name the next lap "1번째 판" |
| LapName.ExampleLeftmost | TimeAddiction/TimeBlockView.swift:110 | in "a12번째 x 9번째" the leftmost match counts 12 and captures "x 9번째", giving "13번째 x 9번째" |
| Ordering.Insert | TimeAddiction/TimeBlockView.swift:91 | inserting a later position keeps the order sorted by (startTime, insertion position) and adds exactly that position |
| Ordering.OrderOfPrefix | TimeAddiction/TimeBlockView.swift:91 | the first n positions in stable startTime order, each exactly once |
| Ordering.StableOrder | TimeAddiction/TimeBlockView.swift:91 | a permutation of all positions, sorted by startTime, with equal startTimes kept in insertion order |
| Ordering.StableOrderUnique | TimeAddiction/TimeBlockView.swift:91 | any two stable startTime orders of the same laps are equal, so any stable sort yields the modelled one |
| Ordering.PermutedMultiset | TimeAddiction/TimeBlockView.swift:91 | a sequence listed through an arrangement that uses every position once holds every element with its multiplicity |
| Ordering.StableOrderPermutes | TimeAddiction/ContentView.swift:25-28 | values listed through a stable order of their keys are a permutation of the values, as a multiset and by membership |
| Ordering.LastIndex | TimeAddiction/TimeBlockView.swift:95 | `subBlocks.last` after sorting: every other position comes before it in stable startTime order |
| Ordering.LastIndexIsLatestMaximum | TimeAddiction/ContentView.swift:137-138 | the last position has the greatest startTime, and every later-inserted position has a strictly smaller one |
| Ordering.LastIndexAppend | TimeAddiction/TimeBlockView.swift:105-113 | a lap appended with a startTime no earlier than all others becomes the last by startTime |
| TimeBlocks.NewTimeBlock | TimeAddiction/TimeBlock.swift:24-31 | a new block has memo "", the given endTime (nil by default), and subBlocks [] when subSpace holds, nil otherwise |
| TimeBlocks.Preview | TimeAddiction/TimeBlockAddingSheet.swift:61-62 | `TimeBlock.preview`, the stand-in each new block and lap is made from, starts at `now`, runs, has memo "" and an empty lap list |
| TimeBlocks.ByStart | TimeAddiction/TimeBlockView.swift:90-92 | the laps reordered by a stable sort: same length, ascending startTime, each element taken from the stable order's position |
| TimeBlocks.Duration | TimeAddiction/TimeBlock.swift:34-38 | the range runs from startTime to endTime, or to now while running; it exists exactly when that upper bound is not below startTime |
| TimeBlocks.StartedRoot | TimeAddiction/TimeBlockAddingSheet.swift:61-69 | the new root has the given name, starts now and runs, with exactly one running lap "1번째 판" at the same startTime, with memo "" and an empty lap list of its own |
| TimeBlocks.EndTimeBlock | TimeAddiction/TimeBlockView.swift:94-99 | the root and its last lap by startTime get the same endTime now, and no other lap changes; with no lap it fails |
| TimeBlocks.LapSubBlock | TimeAddiction/TimeBlockView.swift:101-118 | closes exactly the last lap by startTime at now, leaves the others, and appends one running lap named from the laps in startTime order; with no lap it fails |
| TimeBlocks.OfferedActions | TimeAddiction/TimeBlockView.swift:228-258 | an ended root offers no action; a running root offers ending and lapping |
| TimeBlocks.Perform | TimeAddiction/TimeBlockView.swift:228-253 | on a valid root every offered button succeeds; both keep the name, memo and startTime; ending leaves the root closed with nothing offered; lapping keeps it running with one lap more |
| TimeBlocks.SameStartsSameLast | TimeAddiction/TimeBlockView.swift:90-99 | changing only endTimes keeps the startTime order and the last lap |
| TimeBlocks.StartedRootValid | TimeAddiction/TimeBlockAddingSheet.swift:61-69 | a freshly added root satisfies the root invariant |
| TimeBlocks.ValidRootRunsOnlyLast | TimeAddiction/TimeBlockView.swift:94-117 | under the root invariant at most one lap runs, the last by startTime, and the root runs exactly when that lap does |
| TimeBlocks.EndPreservesValid | TimeAddiction/TimeBlockView.swift:94-99 | ending a valid root succeeds, keeps the invariant and leaves the root closed |
| TimeBlocks.LapAppendsLast | TimeAddiction/TimeBlockView.swift:101-113 | a new lap starting no earlier than every lap is the last by startTime afterwards |
| TimeBlocks.LapClosesAllButNew | TimeAddiction/TimeBlockView.swift:102-113 | after a lap every old lap is closed and well timed |
| TimeBlocks.LapPreservesValid | TimeAddiction/TimeBlockView.swift:101-118 | lapping a running valid root, with the new lap starting no earlier than the closing instant, keeps the invariant; the new lap is the last by startTime and the only running one |
| TimeBlocks.LapBeforeLastStartBreaksInvariant | TimeAddiction/TimeBlockView.swift:102-113 | without that ordering condition the invariant breaks: a new lap starting before the last lap is left running without being last |
| TimeBlocks.PerformPreservesValid | TimeAddiction/TimeBlockView.swift:228-258 | every action the detail view offers keeps the root invariant |
| TimeBlocks.EndedOffersNothing | TimeAddiction/TimeBlockView.swift:86-88 | once ended, a root offers neither ending nor lapping |
| TimeBlocks.DurationWellFormed | TimeAddiction/TimeBlock.swift:36-38 | under the invariant, the duration of the root and of every lap is a proper closed range |
| Days.NewDay | TimeAddiction/DayBlock.swift:14-22 | a new Day has the given date, memo "", no goalMinute and no time blocks |
| Days.DatesUnique | TimeAddiction/DayBlock.swift:13 | in a valid store no two Days share a date |
| Days.CheckAndAddDayBlock | TimeAddiction/ContentView.swift:129-134 | a Day is created only for today and only if none exists for the date; existing Days are untouched |
| Days.CheckAndAddIdempotent | TimeAddiction/ContentView.swift:129-134 | checking twice for the same date has the effect of checking once |
| Days.CheckAndAddPreservesValid | TimeAddiction/ContentView.swift:129-134 | day creation keeps every Day under its own date |
| Days.RemoveSpaces | TimeAddiction/TimeBlockAddingSheet.swift:54 | the filtered name holds no U+0020, and is empty exactly when the name is made of spaces only |
| Days.IsBlank | TimeAddiction/TimeBlockAddingSheet.swift:54 | a name is rejected exactly when it is made of U+0020 only, including the empty name |
| Days.TabIsNotBlank | TimeAddiction/TimeBlockAddingSheet.swift:54 | a tab counts as content: "\t" and " \t " are accepted, "   " is rejected |
| Days.DismissTitle | TimeAddiction/TimeBlockAddingSheet.swift:41-45 | on dismissal a draft of spaces only is cleared to "", any other draft is kept |
| Days.AddTimeBlock | TimeAddiction/TimeBlockAddingSheet.swift:53-74 | a blank name adds nothing; otherwise exactly one started root is appended and the earlier blocks are unchanged; the title becomes "" either way |
| Days.SubmitNewBlock | TimeAddiction/TimeBlockAddingSheet.swift:61-71 | submitting changes only the Day it was opened for |
| Days.EndRootBlock | TimeAddiction/ContentView.swift:136-142 | fails exactly when the root has no laps; otherwise only that root of that Day changes, to its ended form, and every other Day, block, Day field and the orphans are unchanged |
| Days.LapRootBlock | TimeAddiction/TimeBlockView.swift:101-117 | fails exactly when the root has no laps; otherwise only that root of that Day changes, to its lapped form, and everything else is unchanged |
| Days.DeleteTimeBlock | TimeAddiction/ContentView.swift:144-147 | the root leaves its Day, which loses exactly that one block (as a multiset) and keeps its date, memo and goal; other Days are unchanged; its laps remain without a parent |
| Days.DeleteDay | TimeAddiction/DayBlock.swift:17-18 | the Day and, by the cascade rule, its root blocks go; the laps of those roots remain without a parent; other Days are unchanged |
| Days.Listed | TimeAddiction/ContentView.swift:23-28 | the list for a date is a permutation (same blocks, same multiplicities) of the root blocks of that date's Day, ascending by startTime, and empty when there is no such Day |
| Days.LastListed | TimeAddiction/ContentView.swift:229 | the last listed block is the root at the stable-last position of its Day |
| Days.BottomBar | TimeAddiction/ContentView.swift:227-252 | the end button exactly when the last listed block is running, aimed at that block; otherwise the add button, enabled exactly when the selected date is today |
| Days.SubmitPreservesValid | TimeAddiction/TimeBlockAddingSheet.swift:53-74 | adding a time block keeps the store valid |
| Days.EndRootPreservesValid | TimeAddiction/ContentView.swift:136-142 | ending a root from the main view succeeds and keeps the store valid |
| Days.LapRootPreservesValid | TimeAddiction/TimeBlockView.swift:101-118 | lapping a running root keeps the store valid |
| Days.ReplacePreservesValid | TimeAddiction/ContentView.swift:136-142 | replacing one root by a valid root keeps the store valid |
| Days.DeletePreservesValid | TimeAddiction/ContentView.swift:144-147 | deleting a root keeps the store valid |
| Days.DeleteDayLeavesNothingListed | TimeAddiction/DayBlock.swift:17-18 | after a Day is deleted nothing is listed for its date, and the store stays valid |
| Days.AddThenEndOffered | TimeAddiction/ContentView.swift:227-252 | after adding a block that starts last, the bar offers ending, aimed at the new block |
| Days.EndButtonThenAdd | TimeAddiction/ContentView.swift:227-252 | when the stable-last root block is running, the bar shows the end button aimed at it; pressing it keeps the store valid and the bar then offers adding, enabled only for today |
| Days.EndButtonAimsAtLast | TimeAddiction/ContentView.swift:229-232 | the end button is shown exactly when the stable-last root block of the selected Day is running, and it acts on that block |
| Days.EndedLastStaysLast | TimeAddiction/ContentView.swift:229-236 | closing a root block keeps the Day's start times, so the same block still sorts last, and that block is no longer running |
| Days.AddButtonWhenLastEnded | TimeAddiction/ContentView.swift:229-250 | when that block is closed, the add button is shown, enabled exactly for today |
| Days.AddEnabledOnlyToday | TimeAddiction/ContentView.swift:248 | an enabled add button means the selected date is today |

## Left out

- SwiftUI views, navigation, sheets, toolbars, `TimelineView` refresh and the display-only detail views: presentation only, no state logic.
- Device rotation, the app entry point and the date picker sheet: UI only.
- Duration formatting (`DateFormatingTool.swift`): locale-dependent Foundation formatting over floating-point intervals. Its one rule is that intervals under 60 seconds always show seconds.
- SwiftData persistence mechanics: the model has no `FetchDescriptor`, `modelContext.insert`/`save`, or `try?` that ignores save errors. A save that fails silently is not modelled.
- `Date.now` is an argument everywhere. The two clock reads in a lap are the arguments `now` and `newStart`.
- LapName.NextLapName: counts are unbounded. The app computes `String(count+1)` with Swift's trapping `+`, so a last name counting `Int.max` crashes it, while the model writes the next number; that overflow trap (TimeBlockView.swift:114) is not modelled.
- `Digits.Value`: reads ASCII digits only, unbounded. `Int(_:)` would trap with `!` on a count that overflows `Int`, and `.digit` also accepts non-ASCII decimal digits. Neither is modelled.
- Strings are sequences of Unicode scalars. Swift's `Regex` matches by `Character` under canonical equivalence, which the model does not. Wherever a combining mark attaches to a character the pattern reads (a digit, "번", "째" or a space), the app and the model can disagree. For example: a name whose "번째" is stored decomposed (as conjoining jamo) matches in the app but not in `LapName.SuffixAt`; a U+0020 followed by a combining mark forms one `Character` that is not " ", so in "1번째 \u{301}x" the app captures " \u{301}x" and writes "2번째  \u{301}x", while the model skips the U+0020 and writes "2번째 \u{301}x"; and a combining mark right after "째" (as in "1번째\u{301}x", or "째" followed by the trailing jamo U+11AB) joins it into one `Character` that the literal "번째" does not match, so the app finds no match and writes "1번째 판", while the model matches and writes "2번째 \u{301}x".
- Days.SubmitNewBlock: requires the Day for the selected date to exist. The app reaches the sheet through `dayBlock!`, which traps when it does not; that trap is not modelled.
- The lap button appends the new lap to `subBlockPath.last ?? rootTimeBlock`. The model always appends to the root; the sub-block path belongs to view navigation.
- The detail view works on its sorted snapshot of the laps, taken before the new lap is added: the lap names are read from it, and the lap that `endTimeBlock` and `lapSubBlock` close is its `subBlocks.last!`. The model assumes the snapshot is current in both uses.
- `TimeBlocks.ByStart` assumes the sort by startTime is stable. `sorted(using:)` and the store's fetch order do not promise to keep ties in insertion order.
- The adding sheet also appends the new root to a `timeBlocks` array bound by its caller (`@Binding var timeBlocks`). That is a view-side copy and is not modelled.
- `subBlocks` is `[TimeBlock]?` in the entity, but some call sites use it as non-optional. The model reads a missing list as empty. Ending and lapping produce a present list.
- Root-to-lap deletion: the `subBlocks` relationship has no delete rule, so deleting a root leaves its laps in the store without a parent. The model keeps them in `Store.orphans`; it does not claim they are deleted.
- `EndTimeBlock`, `LapSubBlock`: the source traps (`last!`) on a root without laps. The model returns `Err(NoSubBlocks)` instead.
- `Days.DeleteDay`: no flow of the app deletes a Day. It models the cascade rule declared on `DayBlock.timeBlocks`.
- `TimeBlocks.Duration`: forming a `ClosedRange` whose bounds are out of order traps in the source. The model returns `None`.

=== FILE: days.dfy ===
/** Days and the store of everything persisted (DayBlock.swift,
    ContentView.swift, TimeBlockAddingSheet.swift).

    Days are kept in a map keyed by date, so one Day per date is a matter
    of structure. A Day owns its root blocks; deleting a Day deletes them.
    Deleting a root block does not delete its laps: the lap relationship
    has no delete rule, so the laps stay in the store without a parent,
    and are kept here as `orphans`. */
module Days {
  import opened Wrappers
  import opened Ordering
  import opened TimeBlocks

  datatype Day = Day(date: int, memo: string, goalMinute: Option<int>, timeBlocks: seq<Block>)

  /** `DayBlock.init(_:)`. */
  function NewDay(date: int): (d: Day)
    ensures d.date == date && d.memo == "" && d.goalMinute.None? && d.timeBlocks == []
  {
    Day(date, "", None, [])
  }

  datatype Store = Store(days: map<int, Day>, orphans: seq<Block>)

  /** Every Day sits under its own date, and every root block keeps the
      root invariant. */
  ghost predicate ValidStore(s: Store) {
    forall date :: date in s.days ==>
      && s.days[date].date == date
      && forall i :: 0 <= i < |s.days[date].timeBlocks| ==> ValidRoot(s.days[date].timeBlocks[i])
  }

  /** No two Days share a date. */
  lemma DatesUnique(s: Store)
    requires ValidStore(s)
    ensures forall d1, d2 :: d1 in s.days && d2 in s.days && s.days[d1].date == s.days[d2].date ==> d1 == d2
  {
  }

  // ---------------------------------------------------------------------
  // Day lifecycle

  /** `checkAndAddDayBlock`: a Day is created for `date` only when none
      exists and `date` is today. */
  function CheckAndAddDayBlock(s: Store, date: int, today: int): (r: Store)
    ensures r.orphans == s.orphans
    ensures forall d :: d in s.days ==> d in r.days && r.days[d] == s.days[d]
    ensures forall d :: d in r.days && d !in s.days ==> d == date && date == today && r.days[d] == NewDay(date)
    ensures date in r.days <==> date in s.days || date == today
  {
    if date !in s.days && date == today then s.(days := s.days[date := NewDay(date)]) else s
  }

  /** Checking twice is checking once. */
  lemma CheckAndAddIdempotent(s: Store, date: int, today: int)
    ensures CheckAndAddDayBlock(CheckAndAddDayBlock(s, date, today), date, today)
         == CheckAndAddDayBlock(s, date, today)
  {
  }

  lemma CheckAndAddPreservesValid(s: Store, date: int, today: int)
    requires ValidStore(s)
    ensures ValidStore(CheckAndAddDayBlock(s, date, today))
  {
  }

  // ---------------------------------------------------------------------
  // The adding sheet

  /** `name.filter { $0 != " " }`. */
  function RemoveSpaces(s: string): (r: string)
    ensures forall i :: 0 <= i < |r| ==> r[i] != ' '
    ensures |r| == 0 <==> forall i :: 0 <= i < |s| ==> s[i] == ' '
    decreases |s|
  {
    if |s| == 0 then ""
    else if s[0] == ' ' then RemoveSpaces(s[1..])
    else [s[0]] + RemoveSpaces(s[1..])
  }

  /** The guard of `addTimeBlock`: empty, or nothing left once the spaces
      are filtered out. */
  function IsBlank(name: string): (blank: bool)
    ensures blank <==> forall i :: 0 <= i < |name| ==> name[i] == ' '
  {
    |name| == 0 || |RemoveSpaces(name)| == 0
  }

  lemma TabIsNotBlank()
    ensures !IsBlank("\t") && !IsBlank(" \t ") && IsBlank("   ")
  {
    assert " \t "[1] != ' ';
  }

  /** `onDisappear` of the sheet: a draft title of spaces only is cleared,
      any other draft is kept. */
  function DismissTitle(title: string): (r: string)
    ensures (forall i :: 0 <= i < |title| ==> title[i] == ' ') ==> r == ""
    ensures (exists i :: 0 <= i < |title| && title[i] != ' ') ==> r == title
  {
    if |RemoveSpaces(title)| == 0 then "" else title
  }

  /** The Day and the sheet's title after a submission. */
  datatype Submission = Submission(day: Day, title: string)

  /** `addTimeBlock(name:)`: a blank name adds nothing; any other name
      appends one running root block with its first lap. The title is
      reset to "" either way. */
  function AddTimeBlock(day: Day, name: string, now: int): (r: Submission)
    ensures r.title == ""
    ensures r.day.date == day.date && r.day.memo == day.memo && r.day.goalMinute == day.goalMinute
    ensures IsBlank(name) ==> r.day.timeBlocks == day.timeBlocks
    ensures !IsBlank(name) ==> && |r.day.timeBlocks| == |day.timeBlocks| + 1
                               && r.day.timeBlocks[..|day.timeBlocks|] == day.timeBlocks
                               && r.day.timeBlocks[|day.timeBlocks|] == StartedRoot(name, now)
  {
    if IsBlank(name) then
      Submission(day, "")
    else
      Submission(day.(timeBlocks := day.timeBlocks + [StartedRoot(name, now)]), "")
  }

  // ---------------------------------------------------------------------
  // Store operations on one Day's root blocks

  function WithBlocks(s: Store, date: int, blocks: seq<Block>): (r: Store)
    requires date in s.days
    ensures r.orphans == s.orphans && r.days.Keys == s.days.Keys
    ensures r.days[date] == s.days[date].(timeBlocks := blocks)
    ensures forall d :: d in s.days && d != date ==> r.days[d] == s.days[d]
  {
    s.(days := s.days[date := s.days[date].(timeBlocks := blocks)])
  }

  /** Submitting the sheet for the Day of `date`. */
  function SubmitNewBlock(s: Store, date: int, name: string, now: int): (r: Store)
    requires date in s.days
    ensures r.orphans == s.orphans && r.days.Keys == s.days.Keys
    ensures forall d :: d in s.days && d != date ==> r.days[d] == s.days[d]
    ensures r.days[date] == AddTimeBlock(s.days[date], name, now).day
  {
    WithBlocks(s, date, AddTimeBlock(s.days[date], name, now).day.timeBlocks)
  }

  /** `r` differs from `s` at most in the `i`th root block of the Day of
      `date`: same Days, same orphans, same Day fields, same other blocks. */
  ghost predicate OnlyBlockChanged(s: Store, r: Store, date: int, i: nat)
    requires date in s.days && i < |s.days[date].timeBlocks|
  {
    && r.orphans == s.orphans && r.days.Keys == s.days.Keys
    && (forall d :: d in s.days && d != date ==> r.days[d] == s.days[d])
    && r.days[date] == s.days[date].(timeBlocks := r.days[date].timeBlocks)
    && |r.days[date].timeBlocks| == |s.days[date].timeBlocks|
    && (forall j :: 0 <= j < |s.days[date].timeBlocks| && j != i ==>
          r.days[date].timeBlocks[j] == s.days[date].timeBlocks[j])
  }

  /** Ending the `i`th root block of the Day of `date`: only that block
      changes, to its ended form. */
  function EndRootBlock(s: Store, date: int, i: nat, now: int): (r: Result<Store, BlockError>)
    requires date in s.days && i < |s.days[date].timeBlocks|
    ensures r.Err? <==> EndTimeBlock(s.days[date].timeBlocks[i], now).Err?
    ensures r.Ok? ==> OnlyBlockChanged(s, r.value, date, i)
    ensures r.Ok? ==> r.value.days[date].timeBlocks[i] == EndTimeBlock(s.days[date].timeBlocks[i], now).value
  {
    var tbs := s.days[date].timeBlocks;
    match EndTimeBlock(tbs[i], now)
    case Err(e) => Err(e)
    case Ok(b) => Ok(WithBlocks(s, date, tbs[i := b]))
  }

  /** Lapping the `i`th root block of the Day of `date`: only that block
      changes, to its lapped form. */
  function LapRootBlock(s: Store, date: int, i: nat, now: int, newStart: int): (r: Result<Store, BlockError>)
    requires date in s.days && i < |s.days[date].timeBlocks|
    ensures r.Err? <==> LapSubBlock(s.days[date].timeBlocks[i], now, newStart).Err?
    ensures r.Ok? ==> OnlyBlockChanged(s, r.value, date, i)
    ensures r.Ok? ==> r.value.days[date].timeBlocks[i] == LapSubBlock(s.days[date].timeBlocks[i], now, newStart).value
  {
    var tbs := s.days[date].timeBlocks;
    match LapSubBlock(tbs[i], now, newStart)
    case Err(e) => Err(e)
    case Ok(b) => Ok(WithBlocks(s, date, tbs[i := b]))
  }

  /** `deleteTimeBlock`: the root block leaves its Day; every other root
      block stays as it was; its laps stay in the store without a parent. */
  function DeleteTimeBlock(s: Store, date: int, i: nat): (r: Store)
    requires date in s.days && i < |s.days[date].timeBlocks|
    ensures r.days.Keys == s.days.Keys
    ensures forall d :: d in s.days && d != date ==> r.days[d] == s.days[d]
    ensures r.days[date] == s.days[date].(timeBlocks := r.days[date].timeBlocks)
    ensures |r.days[date].timeBlocks| == |s.days[date].timeBlocks| - 1
    ensures multiset(r.days[date].timeBlocks) + multiset{s.days[date].timeBlocks[i]}
         == multiset(s.days[date].timeBlocks)
    ensures r.orphans == s.orphans + Subs(s.days[date].timeBlocks[i])
  {
    var tbs := s.days[date].timeBlocks;
    assert tbs == tbs[..i] + [tbs[i]] + tbs[i + 1..];
    WithBlocks(s, date, tbs[..i] + tbs[i + 1..]).(orphans := s.orphans + Subs(tbs[i]))
  }

  /** The laps of all the given root blocks, in order. */
  function AllLaps(roots: seq<Block>): (r: seq<Block>)
    ensures forall i, j :: 0 <= i < |roots| && 0 <= j < |Subs(roots[i])| ==> Subs(roots[i])[j] in r
    decreases |roots|
  {
    if |roots| == 0 then [] else Subs(roots[0]) + AllLaps(roots[1..])
  }

  /** Deleting a Day: the cascade rule deletes its root blocks; their laps
      stay in the store without a parent. No flow of the app deletes a Day. */
  function DeleteDay(s: Store, date: int): (r: Store)
    ensures date !in r.days
    ensures forall d :: d in r.days <==> d in s.days && d != date
    ensures forall d :: d in r.days ==> r.days[d] == s.days[d]
    ensures date in s.days ==> r.orphans == s.orphans + AllLaps(s.days[date].timeBlocks)
    ensures date !in s.days ==> r == s
  {
    if date in s.days then
      Store(s.days - {date}, s.orphans + AllLaps(s.days[date].timeBlocks))
    else
      s
  }

  // ---------------------------------------------------------------------
  // The main list and its bottom bar

  /** The time blocks listed for `selected`: the root blocks whose Day has
      that date, by startTime. Laps have no Day and are never listed. */
  function Listed(s: Store, selected: int): (r: seq<Block>)
    ensures selected !in s.days ==> r == []
    ensures selected in s.days ==> |r| == |s.days[selected].timeBlocks|
    ensures forall p, q :: 0 <= p < q < |r| ==> r[p].start <= r[q].start
    ensures forall p :: 0 <= p < |r| ==> r[p] in s.days[selected].timeBlocks
    ensures selected in s.days ==> forall b :: b in s.days[selected].timeBlocks ==> b in r
    ensures selected in s.days ==> multiset(r) == multiset(s.days[selected].timeBlocks)
  {
    if selected in s.days then
      var tbs := s.days[selected].timeBlocks;
      var r := ByStart(tbs);
      ListedIsPermutation(tbs, r);
      r
    else
      []
  }

  lemma ListedIsPermutation(tbs: seq<Block>, r: seq<Block>)
    requires r == ByStart(tbs)
    ensures forall p :: 0 <= p < |r| ==> r[p] in tbs
    ensures forall b :: b in tbs ==> b in r
    ensures multiset(r) == multiset(tbs)
  {
    var order :| IsStableOrder(Starts(tbs), order) && |order| == |r|
                 && forall p :: 0 <= p < |r| ==> r[p] == tbs[order[p]];
    StableOrderPermutes(tbs, Starts(tbs), order, r);
  }

  /** The last listed block is the root block at the stable-last position. */
  lemma LastListed(s: Store, selected: int)
    requires selected in s.days && |s.days[selected].timeBlocks| > 0
    ensures var tbs := s.days[selected].timeBlocks;
            Listed(s, selected)[|tbs| - 1] == tbs[LastIndex(Starts(tbs))]
  {
  }

  datatype StatusControl = EndButton(target: nat) | AddButton(enabled: bool)

  /** `bottomBarItem`: the end button when the last listed block is
      running, aimed at it; otherwise the add button, enabled only when the
      selected date is today. */
  function BottomBar(s: Store, selected: int, today: int): (c: StatusControl)
    ensures c.EndButton? <==> |Listed(s, selected)| > 0 && IsRunning(Listed(s, selected)[|Listed(s, selected)| - 1])
    ensures c.EndButton? ==> selected in s.days && c.target < |s.days[selected].timeBlocks|
                             && s.days[selected].timeBlocks[c.target] == Listed(s, selected)[|Listed(s, selected)| - 1]
    ensures c.AddButton? ==> (c.enabled <==> selected == today)
  {
    if selected in s.days && |s.days[selected].timeBlocks| > 0 then
      var tbs := s.days[selected].timeBlocks;
      var k := LastIndex(Starts(tbs));
      LastListed(s, selected);
      if IsRunning(tbs[k]) then EndButton(k) else AddButton(selected == today)
    else
      AddButton(selected == today)
  }

  // ---------------------------------------------------------------------
  // Properties

  lemma SubmitPreservesValid(s: Store, date: int, name: string, now: int)
    requires ValidStore(s) && date in s.days
    ensures ValidStore(SubmitNewBlock(s, date, name, now))
  {
    StartedRootValid(name, now);
  }

  lemma EndRootPreservesValid(s: Store, date: int, i: nat, now: int)
    requires ValidStore(s) && date in s.days && i < |s.days[date].timeBlocks|
    requires StartedBy(s.days[date].timeBlocks[i], now)
    ensures EndRootBlock(s, date, i, now).Ok?
    ensures ValidStore(EndRootBlock(s, date, i, now).value)
  {
    var tbs := s.days[date].timeBlocks;
    EndPreservesValid(tbs[i], now);
    ReplacePreservesValid(s, date, i, EndTimeBlock(tbs[i], now).value);
  }

  lemma LapRootPreservesValid(s: Store, date: int, i: nat, now: int, newStart: int)
    requires ValidStore(s) && date in s.days && i < |s.days[date].timeBlocks|
    requires IsRunning(s.days[date].timeBlocks[i]) && StartedBy(s.days[date].timeBlocks[i], now)
    requires now <= newStart
    ensures LapRootBlock(s, date, i, now, newStart).Ok?
    ensures ValidStore(LapRootBlock(s, date, i, now, newStart).value)
  {
    var tbs := s.days[date].timeBlocks;
    LapPreservesValid(tbs[i], now, newStart);
    ReplacePreservesValid(s, date, i, LapSubBlock(tbs[i], now, newStart).value);
  }

  /** Replacing one root block by a valid one keeps the store valid. */
  lemma ReplacePreservesValid(s: Store, date: int, i: nat, b: Block)
    requires ValidStore(s) && date in s.days && i < |s.days[date].timeBlocks| && ValidRoot(b)
    ensures ValidStore(WithBlocks(s, date, s.days[date].timeBlocks[i := b]))
  {
  }

  lemma DeletePreservesValid(s: Store, date: int, i: nat)
    requires ValidStore(s) && date in s.days && i < |s.days[date].timeBlocks|
    ensures ValidStore(DeleteTimeBlock(s, date, i))
  {
    var tbs := s.days[date].timeBlocks;
    var rest := tbs[..i] + tbs[i + 1..];
    assert forall j :: 0 <= j < |rest| ==> rest[j] in tbs;
  }

  /** After deleting a Day nothing is listed for its date and the store
      stays valid. */
  lemma DeleteDayLeavesNothingListed(s: Store, date: int)
    requires ValidStore(s)
    ensures Listed(DeleteDay(s, date), date) == []
    ensures ValidStore(DeleteDay(s, date))
  {
  }

  /** Adding a block whose start is the latest of its Day puts the end
      button on the bar, aimed at the new block. */
  lemma AddThenEndOffered(s: Store, date: int, name: string, now: int, today: int)
    requires ValidStore(s) && date in s.days && !IsBlank(name)
    requires forall i :: 0 <= i < |s.days[date].timeBlocks| ==> s.days[date].timeBlocks[i].start <= now
    ensures BottomBar(SubmitNewBlock(s, date, name, now), date, today) == EndButton(|s.days[date].timeBlocks|)
  {
    var tbs := s.days[date].timeBlocks;
    var r := SubmitNewBlock(s, date, name, now);
    var tbs' := r.days[date].timeBlocks;
    assert tbs' == tbs + [StartedRoot(name, now)];
    assert Starts(tbs') == Starts(tbs) + [now];
    LastIndexAppend(Starts(tbs), now);
  }

  /** Pressing the end button closes the block it aims at; the store stays
      valid and the bar then offers adding, enabled only for today. */
  lemma EndButtonThenAdd(s: Store, selected: int, today: int, now: int)
    requires ValidStore(s) && selected in s.days && |s.days[selected].timeBlocks| > 0
    requires var tbs := s.days[selected].timeBlocks;
             IsRunning(tbs[LastIndex(Starts(tbs))]) && StartedBy(tbs[LastIndex(Starts(tbs))], now)
    ensures var i := LastIndex(Starts(s.days[selected].timeBlocks));
            && BottomBar(s, selected, today) == EndButton(i)
            && EndRootBlock(s, selected, i, now).Ok?
            && ValidStore(EndRootBlock(s, selected, i, now).value)
            && BottomBar(EndRootBlock(s, selected, i, now).value, selected, today) == AddButton(selected == today)
  {
    var tbs := s.days[selected].timeBlocks;
    var i := LastIndex(Starts(tbs));
    EndButtonAimsAtLast(s, selected, today);
    EndRootPreservesValid(s, selected, i, now);
    EndedLastStaysLast(s, selected, i, now);
    AddButtonWhenLastEnded(EndRootBlock(s, selected, i, now).value, selected, today);
  }

  /** Closing a root block changes neither the Day's start times nor, hence,
      which block sorts last; the closed block is no longer running. */
  lemma EndedLastStaysLast(s: Store, selected: int, i: nat, now: int)
    requires selected in s.days && i < |s.days[selected].timeBlocks|
    requires EndRootBlock(s, selected, i, now).Ok?
    ensures var tbs := s.days[selected].timeBlocks;
            var r := EndRootBlock(s, selected, i, now).value;
            && selected in r.days && |r.days[selected].timeBlocks| == |tbs|
            && LastIndex(Starts(r.days[selected].timeBlocks)) == LastIndex(Starts(tbs))
            && !IsRunning(r.days[selected].timeBlocks[i])
  {
    var tbs := s.days[selected].timeBlocks;
    var r := EndRootBlock(s, selected, i, now).value;
    var tbs' := r.days[selected].timeBlocks;
    assert tbs' == tbs[i := EndTimeBlock(tbs[i], now).value];
    SameStartsSameLast(tbs, tbs');
  }

  /** The end button is shown exactly when the stable-last root block of
      the Day is running, and it aims at that block. */
  lemma EndButtonAimsAtLast(s: Store, selected: int, today: int)
    ensures BottomBar(s, selected, today).EndButton? <==>
              selected in s.days && |s.days[selected].timeBlocks| > 0
              && IsRunning(s.days[selected].timeBlocks[LastIndex(Starts(s.days[selected].timeBlocks))])
    ensures BottomBar(s, selected, today).EndButton? ==>
              BottomBar(s, selected, today).target == LastIndex(Starts(s.days[selected].timeBlocks))
  {
  }

  /** When the stable-last root block is closed, the add button is shown. */
  lemma AddButtonWhenLastEnded(s: Store, selected: int, today: int)
    requires selected in s.days && |s.days[selected].timeBlocks| > 0
    requires !IsRunning(s.days[selected].timeBlocks[LastIndex(Starts(s.days[selected].timeBlocks))])
    ensures BottomBar(s, selected, today) == AddButton(selected == today)
  {
  }

  /** The add button is enabled only on today's list, so root blocks are
      created only for today's Day. */
  lemma AddEnabledOnlyToday(s: Store, selected: int, today: int)
    requires BottomBar(s, selected, today) == AddButton(true)
    ensures selected == today
  {
  }
}

=== FILE: digits.dfy ===
/** Decimal numerals: reading an ASCII digit run as a number, as `Int(_:)`
    does, and rendering a number back, as `String(_:)` does. */
module Digits {

  predicate IsDigit(c: char) {
    '0' <= c <= '9'
  }

  predicate AllDigits(s: string) {
    forall i :: 0 <= i < |s| ==> IsDigit(s[i])
  }

  /** A canonical numeral: non-empty, digits only, no leading zero unless it is "0". */
  predicate IsCanonical(s: string) {
    |s| >= 1 && AllDigits(s) && (|s| > 1 ==> s[0] != '0')
  }

  function DigitValue(c: char): nat
    requires IsDigit(c)
  {
    c as int - '0' as int
  }

  function DigitChar(d: nat): (c: char)
    requires d < 10
    ensures IsDigit(c) && DigitValue(c) == d
  {
    ('0' as int + d) as char
  }

  /** The value of a digit string, most significant digit first. */
  function Value(s: string): nat
    requires AllDigits(s)
    decreases |s|
  {
    if |s| == 0 then 0 else Value(s[..|s| - 1]) * 10 + DigitValue(s[|s| - 1])
  }

  /** The decimal rendering of `n`. */
  function Render(n: nat): (r: string)
    ensures IsCanonical(r)
    decreases n
  {
    if n < 10 then [DigitChar(n)] else Render(n / 10) + [DigitChar(n % 10)]
  }

  /** Reading back a rendered number gives the number. */
  lemma {:induction false} ValueOfRender(n: nat)
    ensures Value(Render(n)) == n
    decreases n
  {
    if n >= 10 {
      var r := Render(n / 10);
      ValueOfRender(n / 10);
      assert (r + [DigitChar(n % 10)])[..|r|] == r;
    }
  }

  /** A numeral with a non-zero leading digit has a positive value. */
  lemma {:induction false} ValuePositive(s: string)
    requires AllDigits(s) && |s| >= 1 && s[0] != '0'
    ensures Value(s) >= 1
    decreases |s|
  {
    if |s| > 1 {
      ValuePositive(s[..|s| - 1]);
    }
  }

  /** Rendering the value of a canonical numeral gives the numeral back. */
  lemma {:induction false} RenderOfValue(s: string)
    requires IsCanonical(s)
    ensures Render(Value(s)) == s
    decreases |s|
  {
    if |s| > 1 {
      var init := s[..|s| - 1];
      assert IsCanonical(init);
      ValuePositive(init);
      RenderOfValue(init);
      assert s == init + [s[|s| - 1]];
    }
  }
}

=== FILE: lapname.dfy ===
/** The naming of the next lap of a time block (TimeBlockView.lapSubBlock).

    Every existing lap name is searched, unanchored, for the pattern
      one or more digits, the ordinal suffix "번째", zero or more U+0020 spaces,
      and optionally the rest of the name captured as a description;
    the last name (in startTime order) that contains a match supplies the
    count n and the description d, and the new lap is called
    "(n+1)번째", followed by " " + d when d was captured. When no name
    matches, the count is 0 and the description "판", giving "1번째 판". */
module LapName {
  import opened Wrappers
  import opened Digits

  const OrdinalSuffix: string := "번째"
  const DefaultDescription: string := "판"
  const FirstLapName: string := "1번째 판"

  predicate AllSpaces(s: string) {
    forall i :: 0 <= i < |s| ==> s[i] == ' '
  }

  /** The ordinal suffix occurs at position `j`. */
  predicate SuffixAt(s: string, j: int) {
    0 <= j && j + |OrdinalSuffix| <= |s| && s[j] == OrdinalSuffix[0] && s[j + 1] == OrdinalSuffix[1]
  }

  /** Positions `i` up to `j` (exclusive) hold digits. */
  predicate DigitsBetween(s: string, i: int, j: int) {
    0 <= i <= j <= |s| && AllDigits(s[i..j])
  }

  /** The fixed part of the pattern matches at `i`: positions `i` up to
      `j` form a non-empty digit run and the ordinal suffix follows it.
      Each choice of `j` is one way the digit repetition may stop. */
  predicate PrefixAt(s: string, i: int, j: int) {
    0 <= i < j && SuffixAt(s, j) && DigitsBetween(s, i, j)
  }

  /** The number a digit run denotes. */
  function RunValue(s: string, i: nat, j: nat): (n: nat)
    requires i <= j <= |s| && DigitsBetween(s, i, j)
  {
    assert AllDigits(s[i..j]) by {
      forall k | 0 <= k < j - i ensures IsDigit(s[i..j][k]) {
        assert s[i..j][k] == s[i + k];
      }
    }
    Value(s[i..j])
  }

  /** What the optional tail of the pattern yields on the text `t` after the
      suffix: greedy spaces, then the remainder captured when non-empty. */
  predicate TailCaptures(t: string, d: Option<string>) {
    match d
    case None => AllSpaces(t)
    case Some(x) =>
      0 < |x| <= |t| && x[0] != ' '
      && AllSpaces(t[..|t| - |x|]) && t[|t| - |x|..] == x
  }

  /** One regex match: where it starts, where its digit run ends, the value
      of that digit run, and the captured description. The match always
      extends to the end of the name. */
  datatype Match = Match(start: nat, digitsEnd: nat, count: nat, description: Option<string>)

  /** `m` is the leftmost match of the pattern in `s`, as `firstMatch(in:)` reports it. */
  ghost predicate IsFirstMatch(s: string, m: Match) {
    && PrefixAt(s, m.start, m.digitsEnd)
    && m.count == RunValue(s, m.start, m.digitsEnd)
    && TailCaptures(s[m.digitsEnd + |OrdinalSuffix|..], m.description)
    && forall p, j :: 0 <= p < m.start ==> !PrefixAt(s, p, j)
  }

  ghost predicate NoMatch(s: string) {
    forall p, j :: !PrefixAt(s, p, j)
  }

  function DigitRunEnd(s: string, i: nat): (j: nat)
    requires i <= |s|
    ensures i <= j <= |s| && DigitsBetween(s, i, j)
    ensures j < |s| ==> !IsDigit(s[j])
    decreases |s| - i
  {
    if i < |s| && IsDigit(s[i]) then DigitRunEnd(s, i + 1) else i
  }

  function SkipSpaces(s: string, i: nat): (k: nat)
    requires i <= |s|
    ensures i <= k <= |s| && AllSpaces(s[i..k])
    ensures k < |s| ==> s[k] != ' '
    decreases |s| - i
  {
    if i < |s| && s[i] == ' ' then SkipSpaces(s, i + 1) else i
  }

  /** The optional tail of the pattern applied to `s[from..]`. */
  function Tail(s: string, from: nat): (d: Option<string>)
    requires from <= |s|
    ensures TailCaptures(s[from..], d)
  {
    var k := SkipSpaces(s, from);
    var t := s[from..];
    assert t[..|t| - (|s| - k)] == s[from..k];
    if k < |s| then Some(s[k..]) else None
  }

  /** Where the pattern can match at `i` at all, the digit run must stop at
      its maximal end: the suffix starts with a non-digit. */
  lemma PrefixAtRunEnd(s: string, i: nat, j: int)
    ensures i < |s| && PrefixAt(s, i, j) ==> j == DigitRunEnd(s, i)
  {
    if i < |s| && PrefixAt(s, i, j) {
      var e := DigitRunEnd(s, i);
      DigitIn(s, i, e, j);
      DigitIn(s, i, j, e);
    }
  }

  /** Every position inside a digit run holds a digit. */
  lemma DigitIn(s: string, a: int, b: int, p: int)
    ensures 0 <= a <= p < b <= |s| && AllDigits(s[a..b]) ==> IsDigit(s[p])
  {
    if 0 <= a <= p < b <= |s| {
      assert s[a..b][p - a] == s[p];
    }
  }

  /** When the digit run at `i` is empty or not followed by the suffix, no
      match starts at `i`. */
  lemma NoPrefixAt(s: string, i: nat)
    requires i < |s| && !(IsDigit(s[i]) && SuffixAt(s, DigitRunEnd(s, i)))
    ensures forall j :: !PrefixAt(s, i, j)
  {
    forall j ensures !PrefixAt(s, i, j) {
      PrefixAtRunEnd(s, i, j);
    }
  }

  /** `r` is the leftmost match in `s` starting at or after `i`: when
      present it matches, and no match starts between `i` and it; when
      absent, no match starts at or after `i`. */
  ghost predicate LeftmostFrom(s: string, i: nat, r: Option<Match>)
    requires i <= |s|
  {
    && (r.Some? ==> && i <= r.value.start && PrefixAt(s, r.value.start, r.value.digitsEnd)
                    && r.value.count == RunValue(s, r.value.start, r.value.digitsEnd)
                    && TailCaptures(s[r.value.digitsEnd + |OrdinalSuffix|..], r.value.description))
    && forall p, j :: i <= p < (if r.Some? then r.value.start else |s|) ==> !PrefixAt(s, p, j)
  }

  /** The leftmost match in `s` at or after position `i`. */
  function MatchFrom(s: string, i: nat): (r: Option<Match>)
    requires i <= |s|
    ensures LeftmostFrom(s, i, r)
    decreases |s| - i
  {
    if i == |s| then
      None
    else if IsDigit(s[i]) && SuffixAt(s, DigitRunEnd(s, i)) then
      var j := DigitRunEnd(s, i);
      var m := Match(i, j, RunValue(s, i, j), Tail(s, j + |OrdinalSuffix|));
      MatchHere(s, i, m);
      Some(m)
    else
      var r := MatchFrom(s, i + 1);
      SkipHere(s, i, r);
      r
  }

  /** A digit run followed by the suffix is a match at its first position. */
  lemma MatchHere(s: string, i: nat, m: Match)
    requires i < |s| && IsDigit(s[i]) && SuffixAt(s, DigitRunEnd(s, i))
    requires m.start == i && m.digitsEnd == DigitRunEnd(s, i)
    requires m.count == RunValue(s, i, m.digitsEnd) && m.description == Tail(s, m.digitsEnd + |OrdinalSuffix|)
    ensures LeftmostFrom(s, i, Some(m))
  {
    assert DigitRunEnd(s, i) == DigitRunEnd(s, i + 1);
  }

  /** Where no match starts at `i`, the leftmost match from `i + 1` is the
      leftmost match from `i`. */
  lemma SkipHere(s: string, i: nat, r: Option<Match>)
    requires i < |s| && !(IsDigit(s[i]) && SuffixAt(s, DigitRunEnd(s, i)))
    requires LeftmostFrom(s, i + 1, r)
    ensures LeftmostFrom(s, i, r)
  {
    NoPrefixAt(s, i);
  }

  /** `firstMatch(in:)` of the lap-name pattern. */
  function FirstMatch(s: string): (r: Option<Match>)
    ensures r.Some? ==> IsFirstMatch(s, r.value)
    ensures r.None? <==> NoMatch(s)
  {
    MatchFrom(s, 0)
  }

  /** The declarative description of a first match admits one match only,
      so `FirstMatch` is the only function meeting it. */
  lemma FirstMatchUnique(s: string, m1: Match, m2: Match)
    requires IsFirstMatch(s, m1) && IsFirstMatch(s, m2)
    ensures m1 == m2
  {
    assert m1.start == m2.start;
    PrefixAtRunEnd(s, m1.start, m1.digitsEnd);
    PrefixAtRunEnd(s, m2.start, m2.digitsEnd);
    var t := s[m1.digitsEnd + |OrdinalSuffix|..];
    TailCapturesUnique(t, m1.description, m2.description);
  }

  lemma TailCapturesUnique(t: string, d1: Option<string>, d2: Option<string>)
    requires TailCaptures(t, d1) && TailCaptures(t, d2)
    ensures d1 == d2
  {
  }

  /** The tail that a formatted name carries: nothing, or one space and a
      description that does not itself start with a space. */
  predicate IsCarriedDescription(d: Option<string>) {
    d.Some? ==> |d.value| > 0 && d.value[0] != ' '
  }

  /** `String(count) + ordinalSuffix`, followed by `" " + description` when
      there is one. */
  function FormatLap(count: nat, d: Option<string>): string {
    Render(count) + OrdinalSuffix + (if d.Some? then " " + d.value else "")
  }

  /** Position of the last name that contains a match, if any. */
  function LastMatchIndex(names: seq<string>): (r: Option<nat>)
    ensures r.Some? ==> r.value < |names| && FirstMatch(names[r.value]).Some?
    ensures r.Some? ==> forall l :: r.value < l < |names| ==> FirstMatch(names[l]).None?
    ensures r.None? ==> forall l :: 0 <= l < |names| ==> FirstMatch(names[l]).None?
    decreases |names|
  {
    if |names| == 0 then None
    else if FirstMatch(names[|names| - 1]).Some? then Some(|names| - 1)
    else LastMatchIndex(names[..|names| - 1])
  }

  /** The count and description taken from the history: those of the last
      match, or the fallback `("", 0, "판")`. */
  function Previous(names: seq<string>): (nd: (nat, Option<string>))
    ensures IsCarriedDescription(nd.1)
  {
    match LastMatchIndex(names)
    case Some(k) =>
      var m := FirstMatch(names[k]).value;
      CapturedIsCarried(names[k][m.digitsEnd + |OrdinalSuffix|..], m.description);
      (m.count, m.description)
    case None => (0, Some(DefaultDescription))
  }

  /** The name given to the next lap, from the existing lap names in
      startTime order. */
  function NextLapName(names: seq<string>): string {
    FormatLap(Previous(names).0 + 1, Previous(names).1)
  }

  // ---------------------------------------------------------------------
  // Properties

  /** A carried description never starts with a space. */
  lemma CapturedIsCarried(t: string, d: Option<string>)
    requires TailCaptures(t, d)
    ensures IsCarriedDescription(d)
  {
  }

  /** The last matching position is determined by the names: a matching
      name followed only by non-matching ones is the one chosen. */
  lemma {:induction false} LastMatchIndexIs(names: seq<string>, k: nat)
    requires k < |names| && FirstMatch(names[k]).Some?
    requires forall l :: k < l < |names| ==> FirstMatch(names[l]).None?
    ensures LastMatchIndex(names) == Some(k)
    decreases |names|
  {
    if k < |names| - 1 {
      var init := names[..|names| - 1];
      assert forall l :: k < l < |init| ==> init[l] == names[l];
      LastMatchIndexIs(init, k);
    }
  }

  /** With no matching name the next lap is "1번째 판". */
  lemma NextLapNameFallback(names: seq<string>)
    requires forall l :: 0 <= l < |names| ==> NoMatch(names[l])
    ensures NextLapName(names) == FirstLapName
  {
    assert Render(1) == "1";
  }

  /** The next lap name, stated against the declarative matcher: the last
      name that has a match supplies the count and description, and the
      non-matching names after it are skipped. */
  lemma NextLapNameFromLastMatch(names: seq<string>, k: nat, m: Match)
    requires k < |names| && IsFirstMatch(names[k], m)
    requires forall l :: k < l < |names| ==> NoMatch(names[l])
    ensures NextLapName(names) == FormatLap(m.count + 1, m.description)
  {
    LastMatchIndexIs(names, k);
    FirstMatchUnique(names[k], m, FirstMatch(names[k]).value);
  }

  function Spaces(k: nat): (r: string)
    ensures |r| == k && AllSpaces(r)
  {
    if k == 0 then "" else " " + Spaces(k - 1)
  }

  /** A name written as a numeral, the suffix, any number of spaces and a
      description (or nothing) parses to that number and description: the
      spaces between suffix and description are not part of the capture. */
  lemma ParseSpaced(digits: string, k: nat, d: Option<string>)
    requires |digits| > 0 && AllDigits(digits) && IsCarriedDescription(d)
    ensures FirstMatch(digits + OrdinalSuffix + Spaces(k) + (if d.Some? then d.value else ""))
         == Some(Match(0, |digits|, Value(digits), d))
  {
    var desc := if d.Some? then d.value else "";
    var after := Spaces(k) + desc;
    var tail := OrdinalSuffix + after;
    SuffixThen(after);
    SpacedTail(k, d);
    DigitsThenSuffix(digits, tail);
    MatchAtStart(digits + tail, |digits|, d);
    Regroup(digits, OrdinalSuffix, Spaces(k), desc);
  }

  /** Concatenation regrouped; stated over variables so that the literal
      suffix does not enter the solver's associativity reasoning. */
  lemma Regroup(a: string, b: string, c: string, d: string)
    ensures a + b + c + d == a + (b + (c + d))
  {
  }

  /** Text that starts with the suffix. */
  lemma SuffixThen(after: string)
    ensures var t := OrdinalSuffix + after;
      |t| >= |OrdinalSuffix| && t[0] == OrdinalSuffix[0] && t[1] == OrdinalSuffix[1]
      && t[|OrdinalSuffix|..] == after
  {
  }

  /** Digits followed by text that starts with the suffix match at 0. */
  lemma DigitsThenSuffix(digits: string, tail: string)
    requires |digits| > 0 && AllDigits(digits)
    requires |tail| >= |OrdinalSuffix| && tail[0] == OrdinalSuffix[0] && tail[1] == OrdinalSuffix[1]
    ensures var s := digits + tail;
      && PrefixAt(s, 0, |digits|)
      && RunValue(s, 0, |digits|) == Value(digits)
      && s[|digits| + |OrdinalSuffix|..] == tail[|OrdinalSuffix|..]
  {
    var s := digits + tail;
    var e := |digits|;
    assert s[e] == tail[0] && s[e + 1] == tail[1];
    assert forall k :: 0 <= k < e ==> s[k] == digits[k];
    assert s[0..e] == digits;
  }

  /** A match starting at the first position is the first match. */
  lemma MatchAtStart(s: string, e: nat, d: Option<string>)
    requires PrefixAt(s, 0, e) && TailCaptures(s[e + |OrdinalSuffix|..], d)
    ensures FirstMatch(s) == Some(Match(0, e, RunValue(s, 0, e), d))
  {
    var m := Match(0, e, RunValue(s, 0, e), d);
    assert IsFirstMatch(s, m);
    FirstMatchUnique(s, m, FirstMatch(s).value);
  }

  lemma SpacedTail(k: nat, d: Option<string>)
    requires IsCarriedDescription(d)
    ensures TailCaptures(Spaces(k) + (if d.Some? then d.value else ""), d)
  {
    if d.Some? {
      var t := Spaces(k) + d.value;
      assert t[..|t| - |d.value|] == Spaces(k);
      assert t[|t| - |d.value|..] == d.value;
    } else {
      assert Spaces(k) + "" == Spaces(k);
    }
  }

  /** A formatted lap name parses back to its own count and description. */
  lemma ParseFormat(n: nat, d: Option<string>)
    requires IsCarriedDescription(d)
    ensures FirstMatch(FormatLap(n, d)) == Some(Match(0, |Render(n)|, n, d))
  {
    ValueOfRender(n);
    if d.Some? {
      assert FormatLap(n, d) == Render(n) + OrdinalSuffix + Spaces(1) + d.value;
      ParseSpaced(Render(n), 1, d);
    } else {
      assert FormatLap(n, d) == Render(n) + OrdinalSuffix + Spaces(0) + "";
      ParseSpaced(Render(n), 0, d);
    }
  }

  /** The new lap name carries the count forward by one and the description
      unchanged: parsing it gives back `Previous(names)` with count + 1. */
  lemma NextLapNameParses(names: seq<string>)
    ensures FirstMatch(NextLapName(names))
         == Some(Match(0, |Render(Previous(names).0 + 1)|, Previous(names).0 + 1, Previous(names).1))
  {
    ParseFormat(Previous(names).0 + 1, Previous(names).1);
  }

  /** Lapping repeatedly counts up: after a lap named from `names`, the next
      name has count two more than before and the same description. */
  lemma {:induction false} LapAfterLap(names: seq<string>)
    ensures Previous(names + [NextLapName(names)]) == (Previous(names).0 + 1, Previous(names).1)
    ensures NextLapName(names + [NextLapName(names)]) == FormatLap(Previous(names).0 + 2, Previous(names).1)
  {
    var names' := names + [NextLapName(names)];
    NextLapNameParses(names);
    assert names'[|names'| - 1] == NextLapName(names);
  }

  /** Only the last matching name matters: appending a name without a match
      does not change the next lap name. */
  lemma {:induction false} NonMatchingNameSkipped(names: seq<string>, other: string)
    requires NoMatch(other)
    ensures NextLapName(names + [other]) == NextLapName(names)
  {
    var names' := names + [other];
    assert names'[..|names'| - 1] == names;
  }

  // ---------------------------------------------------------------------
  // Worked cases

  /** A name without any digit has no match. */
  lemma NoDigitNoMatch(s: string)
    requires forall i :: 0 <= i < |s| ==> !IsDigit(s[i])
    ensures NoMatch(s)
  {
    forall p, j ensures !PrefixAt(s, p, j) {
      if 0 <= p < j && p < |s| {
        assert !IsDigit(s[p]);
      }
    }
  }

  /** `["1번째", "2번째 결승"]` continues as `"3번째 결승"`. */
  lemma ExampleStandard()
    ensures NextLapName(["1번째", "2번째 결승"]) == "3번째 결승"
  {
    var s := "2번째 결승";
    StandardMatchOfExample();
    LastNameDecides(["1번째"], s, Match(0, 1, 2, Some("결승")));
    assert ["1번째"] + [s] == ["1번째", "2번째 결승"];
    FormatStandard();
  }

  lemma FormatStandard()
    ensures FormatLap(3, Some("결승")) == "3번째 결승"
  {
    assert Render(3) == "3";
  }

  /** A name without a match after "1번째 판" is skipped:
      `["1번째 판", "custom"]` continues as `"2번째 판"`. */
  lemma ExampleSkipsCustom()
    ensures NextLapName([FirstLapName, "custom"]) == "2번째 판"
  {
    FirstLapNameParses();
    LastNameDecides([], FirstLapName, Match(0, 1, 1, Some(DefaultDescription)));
    assert [] + [FirstLapName] == [FirstLapName];
    NoDigitNoMatch("custom");
    NonMatchingNameSkipped([FirstLapName], "custom");
    assert [FirstLapName] + ["custom"] == [FirstLapName, "custom"];
    FormatSecond();
  }

  /** The name of the first lap is the formatted count 1 with "판". */
  lemma FirstLapNameParses()
    ensures FirstMatch(FirstLapName) == Some(Match(0, 1, 1, Some(DefaultDescription)))
  {
    ParseFormat(1, Some(DefaultDescription));
    assert Render(1) == "1";
    assert FormatLap(1, Some(DefaultDescription)) == FirstLapName;
  }

  lemma FormatSecond()
    ensures FormatLap(2, Some(DefaultDescription)) == "2번째 판"
  {
    assert Render(2) == "2";
  }

  lemma StandardMatchOfExample()
    ensures FirstMatch("2번째 결승") == Some(Match(0, 1, 2, Some("결승")))
  {
    ParseFormat(2, Some("결승"));
    assert FormatLap(2, Some("결승")) == "2번째 결승" by {
      assert Render(2) == "2";
    }
  }

  /** With nothing to parse the first lap name comes back. */
  lemma ExampleFallback()
    ensures NextLapName(["custom"]) == FirstLapName
    ensures NextLapName([]) == FirstLapName
  {
    NoDigitNoMatch("custom");
    NextLapNameFallback(["custom"]);
    NextLapNameFallback([]);
  }

  /** However many spaces follow the suffix, the next name has exactly one
      before the carried description, and none when nothing follows them:
      "3번째결승" and "3번째   결승" both continue as "4번째 결승", and
      "5번째" followed by spaces continues as "6번째". */
  lemma {:induction false} SpacesNormalised(names: seq<string>, digits: string, k: nat, d: Option<string>)
    requires |digits| > 0 && AllDigits(digits) && IsCarriedDescription(d)
    ensures NextLapName(names + [digits + OrdinalSuffix + Spaces(k) + (if d.Some? then d.value else "")])
         == FormatLap(Value(digits) + 1, d)
  {
    var name := digits + OrdinalSuffix + Spaces(k) + (if d.Some? then d.value else "");
    ParseSpaced(digits, k, d);
    LastNameDecides(names, name, Match(0, |digits|, Value(digits), d));
  }

  /** A matching name appended last decides the next lap name. */
  lemma LastNameDecides(names: seq<string>, name: string, m: Match)
    requires FirstMatch(name) == Some(m)
    ensures NextLapName(names + [name]) == FormatLap(m.count + 1, m.description)
  {
    var names' := names + [name];
    assert names'[|names|] == name;
    LastMatchIndexIs(names', |names|);
  }

  /** The match is unanchored and takes the whole leftmost digit run before
      the suffix; later occurrences end up in the description. */
  lemma ExampleLeftmost()
    ensures NextLapName(["a12번째 x 9번째"]) == "13번째 x 9번째"
  {
    var s := "a12번째 x 9번째";
    LeftmostMatchOfExample();
    LastNameDecides([], s, Match(1, 3, 12, Some("x 9번째")));
    assert [] + [s] == [s];
    FormatLeftmost();
  }

  lemma FormatLeftmost()
    ensures FormatLap(13, Some("x 9번째")) == "13번째 x 9번째"
  {
    assert Render(13) == "13" by {
      assert Render(1) == "1";
    }
  }

  lemma LeftmostMatchOfExample()
    ensures FirstMatch("a12번째 x 9번째") == Some(Match(1, 3, 12, Some("x 9번째")))
  {
    var s := "a12번째 x 9번째";
    var m := Match(1, 3, 12, Some("x 9번째"));
    assert forall j :: !PrefixAt(s, 0, j) by {
      NoPrefixAt(s, 0);
    }
    assert PrefixAt(s, 1, 3);
    assert RunValue(s, 1, 3) == 12 by {
      assert s[1..3] == "12";
      assert Value("12") == 12 by {
        assert "12"[..1] == "1";
      }
    }
    assert TailCaptures(s[5..], m.description) by {
      assert s[5..] == " x 9번째";
      assert s[5..][..1] == " ";
    }
    assert IsFirstMatch(s, m);
    FirstMatchUnique(s, m, FirstMatch(s).value);
  }
}

=== FILE: ordering.dfy ===
/** Stable ordering of positions by an integer key, the model of
    `sorted(using: KeyPathComparator(\.startTime))` and of a fetch sorted by
    startTime: positions are ordered by key, and positions with equal keys
    keep their insertion order. */
module Ordering {

  /** Position `i` comes strictly before position `j`. */
  predicate Before(keys: seq<int>, i: nat, j: nat)
    requires i < |keys| && j < |keys|
  {
    keys[i] < keys[j] || (keys[i] == keys[j] && i < j)
  }

  /** `order` holds positions below `bound`, strictly increasing under Before
      (hence without repetition). */
  ghost predicate SortedBelow(keys: seq<int>, order: seq<nat>, bound: nat)
    requires bound <= |keys|
  {
    && (forall p :: 0 <= p < |order| ==> order[p] < bound)
    && (forall p, q :: 0 <= p < q < |order| ==> Before(keys, order[p], order[q]))
  }

  /** `order` lists every position of `keys` exactly once, in stable key order. */
  ghost predicate IsStableOrder(keys: seq<int>, order: seq<nat>) {
    && |order| == |keys|
    && SortedBelow(keys, order, |keys|)
    && (forall i :: 0 <= i < |keys| ==> i in order)
  }

  /** Inserts position `k`, larger than every position in `order`, at its
      stable place: after every position whose key is not greater. */
  function Insert(keys: seq<int>, order: seq<nat>, k: nat): (r: seq<nat>)
    requires k < |keys| && SortedBelow(keys, order, k)
    ensures |r| == |order| + 1 && SortedBelow(keys, r, k + 1)
    ensures forall x :: x in r <==> x in order || x == k
    decreases |order|
  {
    if |order| == 0 || Before(keys, order[|order| - 1], k) then
      order + [k]
    else
      var last := order[|order| - 1];
      var init := order[..|order| - 1];
      assert forall x :: x in order <==> x in init || x == last;
      var r := Insert(keys, init, k) + [last];
      assert forall p :: 0 <= p < |r| - 1 ==> Before(keys, r[p], last) by {
        forall p | 0 <= p < |r| - 1 ensures Before(keys, r[p], last) {
          assert r[p] in Insert(keys, init, k);
          if r[p] != k {
            var q :| 0 <= q < |init| && init[q] == r[p];
            assert order[q] == r[p] && order[|order| - 1] == last;
          }
        }
      }
      r
  }

  /** The stable order of the first `n` positions. */
  function OrderOfPrefix(keys: seq<int>, n: nat): (r: seq<nat>)
    requires n <= |keys|
    ensures |r| == n && SortedBelow(keys, r, n)
    ensures forall x :: x in r <==> 0 <= x < n
    decreases n
  {
    if n == 0 then
      []
    else
      var prev := OrderOfPrefix(keys, n - 1);
      var r := Insert(keys, prev, n - 1);
      assert forall x :: x in r <==> x in prev || x == n - 1;
      r
  }

  /** The positions of `keys` in stable key order. */
  function StableOrder(keys: seq<int>): (r: seq<nat>)
    ensures IsStableOrder(keys, r)
  {
    OrderOfPrefix(keys, |keys|)
  }

  /** The position that a stable sort puts last. */
  function LastIndex(keys: seq<int>): (r: nat)
    requires |keys| > 0
    ensures r < |keys|
    ensures forall j :: 0 <= j < |keys| && j != r ==> Before(keys, j, r)
  {
    var order := StableOrder(keys);
    LastIsGreatest(keys, order, order[|order| - 1]);
    order[|order| - 1]
  }

  lemma LastIsGreatest(keys: seq<int>, order: seq<nat>, last: nat)
    requires |keys| > 0 && IsStableOrder(keys, order) && last == order[|order| - 1]
    ensures forall j :: 0 <= j < |keys| && j != last ==> Before(keys, j, last)
  {
    forall j | 0 <= j < |keys| && j != last
      ensures Before(keys, j, last)
    {
      assert j in order;
      var p :| 0 <= p < |order| && order[p] == j;
    }
  }

  /** The last position has the greatest key, and is the latest inserted
      among those with that key. */
  lemma LastIndexIsLatestMaximum(keys: seq<int>)
    requires |keys| > 0
    ensures forall j :: 0 <= j < |keys| ==> keys[j] <= keys[LastIndex(keys)]
    ensures forall j :: LastIndex(keys) < j < |keys| ==> keys[j] < keys[LastIndex(keys)]
  {
    var r := LastIndex(keys);
    forall j | 0 <= j < |keys| && j != r
      ensures keys[j] <= keys[r] && (r < j ==> keys[j] < keys[r])
    {
      assert Before(keys, j, r);
    }
  }

  /** Two sequences of positions, each strictly increasing under Before and
      holding the same positions, are equal. */
  lemma {:induction false} SortedSameElements(keys: seq<int>, o1: seq<nat>, o2: seq<nat>)
    requires SortedBelow(keys, o1, |keys|) && SortedBelow(keys, o2, |keys|)
    requires forall x :: x in o1 <==> x in o2
    ensures o1 == o2
    decreases |o1|
  {
    if |o1| == 0 {
      FirstIsMember(o2);
    } else {
      LastsAgree(keys, o1, o2);
      var n1, n2 := |o1|, |o2|;
      var l1, l2 := o1[n1 - 1], o2[n2 - 1];
      var i1, i2 := o1[..n1 - 1], o2[..n2 - 1];
      forall x ensures x in i1 <==> x in i2 {
        OtherThanLast(keys, o1, x);
        OtherThanLast(keys, o2, x);
      }
      SortedSameElements(keys, i1, i2);
      assert o1 == i1 + [l1] && o2 == i2 + [l2];
    }
  }

  /** Two such sequences end with the same position. */
  lemma LastsAgree(keys: seq<int>, o1: seq<nat>, o2: seq<nat>)
    requires SortedBelow(keys, o1, |keys|) && SortedBelow(keys, o2, |keys|)
    requires forall x :: x in o1 <==> x in o2
    requires |o1| > 0
    ensures |o2| > 0 && o1[|o1| - 1] == o2[|o2| - 1]
  {
    var n1 := |o1|;
    var l1 := o1[n1 - 1];
    assert l1 in o2;
    var n2 := |o2|;
    var l2 := o2[n2 - 1];
    assert l2 in o1;
    var q1 :| 0 <= q1 < n2 && o2[q1] == l1;
    var q2 :| 0 <= q2 < n1 && o1[q2] == l2;
    assert q1 < n2 - 1 ==> Before(keys, l1, l2);
    assert q2 < n1 - 1 ==> Before(keys, l2, l1);
  }

  lemma OtherThanLast(keys: seq<int>, o: seq<nat>, x: nat)
    requires SortedBelow(keys, o, |keys|) && |o| > 0
    ensures x in o[..|o| - 1] <==> x in o && x != o[|o| - 1]
  {
    if x in o[..|o| - 1] {
      var q :| 0 <= q < |o| - 1 && o[q] == x;
      assert Before(keys, o[q], o[|o| - 1]);
    }
    if x in o && x != o[|o| - 1] {
      var q :| 0 <= q < |o| && o[q] == x;
      assert o[..|o| - 1][q] == x;
    }
  }

  lemma FirstIsMember(o: seq<nat>)
    ensures |o| > 0 ==> o[0] in o
  {
  }

  /** Two stable orders of the same keys are the same sequence: any stable
      sort by key produces exactly `StableOrder`. */
  lemma StableOrderUnique(keys: seq<int>, o1: seq<nat>, o2: seq<nat>)
    requires IsStableOrder(keys, o1) && IsStableOrder(keys, o2)
    ensures o1 == o2
  {
    forall x ensures x in o1 <==> x in o2 {
      if x in o1 {
        var p :| 0 <= p < |o1| && o1[p] == x;
      }
      if x in o2 {
        var p :| 0 <= p < |o2| && o2[p] == x;
      }
    }
    SortedSameElements(keys, o1, o2);
  }

  /** `ys` lists the elements of `xs` through `order`, which uses every
      position of `xs` exactly once. */
  ghost predicate IsArrangement<T>(xs: seq<T>, order: seq<nat>, ys: seq<T>) {
    && |order| == |xs| == |ys|
    && (forall p :: 0 <= p < |order| ==> order[p] < |xs|)
    && (forall p, q :: 0 <= p < q < |order| ==> order[p] != order[q])
    && (forall i :: 0 <= i < |xs| ==> i in order)
    && (forall p :: 0 <= p < |ys| ==> ys[p] == xs[order[p]])
  }

  /** An arrangement keeps every element with its multiplicity. */
  lemma {:induction false} PermutedMultiset<T>(xs: seq<T>, order: seq<nat>, ys: seq<T>)
    requires IsArrangement(xs, order, ys)
    ensures multiset(ys) == multiset(xs)
    decreases |xs|
  {
    if |xs| > 0 {
      var k := |xs| - 1;
      assert k in order;
      var p :| 0 <= p < |order| && order[p] == k;
      var xs', ys' := xs[..k], ys[..p] + ys[p + 1..];
      DropLastPosition(xs, order, ys, p);
      PermutedMultiset(xs', order[..p] + order[p + 1..], ys');
      SplitAt(ys, p);
      assert xs == xs' + [xs[k]];
    }
  }

  /** Removing the element at `p` takes exactly that element out of the multiset. */
  lemma SplitAt<T>(ys: seq<T>, p: nat)
    requires p < |ys|
    ensures multiset(ys) == multiset(ys[..p] + ys[p + 1..]) + multiset{ys[p]}
  {
    assert ys == ys[..p] + [ys[p]] + ys[p + 1..];
  }

  /** Taking out the slot that holds the last position leaves an
      arrangement of the rest. */
  lemma DropLastPosition<T>(xs: seq<T>, order: seq<nat>, ys: seq<T>, p: nat)
    requires IsArrangement(xs, order, ys) && p < |order| && order[p] == |xs| - 1
    ensures IsArrangement(xs[..|xs| - 1], order[..p] + order[p + 1..], ys[..p] + ys[p + 1..])
  {
    var order' := order[..p] + order[p + 1..];
    var ys' := ys[..p] + ys[p + 1..];
    var xs' := xs[..|xs| - 1];
    assert forall q :: 0 <= q < |order'| ==> order'[q] == order[if q < p then q else q + 1];
    assert forall q :: 0 <= q < |ys'| ==> ys'[q] == ys[if q < p then q else q + 1];
    forall i | 0 <= i < |xs'| ensures i in order' {
      assert i in order;
      var q :| 0 <= q < |order| && order[q] == i;
      assert order'[if q < p then q else q - 1] == i;
    }
  }

  /** A stable order uses every position exactly once. */
  lemma StableOrderIsArrangement(keys: seq<int>, order: seq<nat>)
    requires IsStableOrder(keys, order)
    ensures forall p, q :: 0 <= p < q < |order| ==> order[p] != order[q]
  {
    forall p, q | 0 <= p < q < |order| ensures order[p] != order[q] {
      assert Before(keys, order[p], order[q]);
    }
  }

  /** Values listed through a stable order of their keys are a permutation
      of the values. */
  lemma StableOrderPermutes<T>(xs: seq<T>, keys: seq<int>, order: seq<nat>, ys: seq<T>)
    requires |keys| == |xs| && IsStableOrder(keys, order) && |ys| == |order|
    requires forall p :: 0 <= p < |ys| ==> ys[p] == xs[order[p]]
    ensures multiset(ys) == multiset(xs)
    ensures forall x :: x in ys <==> x in xs
  {
    StableOrderIsArrangement(keys, order);
    assert IsArrangement(xs, order, ys);
    PermutedMultiset(xs, order, ys);
    assert forall x :: x in ys <==> x in multiset(ys);
    assert forall x :: x in xs <==> x in multiset(xs);
  }

  /** Appending a key no smaller than every other key makes the new position last. */
  lemma LastIndexAppend(keys: seq<int>, k: int)
    requires forall i :: 0 <= i < |keys| ==> keys[i] <= k
    ensures LastIndex(keys + [k]) == |keys|
  {
    var keys' := keys + [k];
    var r := LastIndex(keys');
    assert r < |keys| ==> !Before(keys', |keys|, r);
  }
}

=== FILE: timeblocks.dfy ===
/** Time blocks and their laps (TimeBlock.swift, TimeBlockView.swift).

    A root block belongs to a Day and holds its laps (sub-blocks) in
    insertion order; the laps are read in startTime order. The back
    references `parent` and `parentDay` are not stored: a block nested in
    another's `subBlocks` is a lap of it, and a block held by a Day is a
    root. Time is an integer instant; the clock is an argument. */
module TimeBlocks {
  import opened Wrappers
  import opened Ordering
  import LapName

  datatype Block = Block(
    name: string,
    memo: string,
    start: int,
    end: Option<int>,
    subBlocks: Option<seq<Block>>)

  /** `TimeBlock.init(_:startTime:endTime:subSpace:)`. */
  function NewTimeBlock(name: string, start: int, end: Option<int> := None, subSpace: bool := true): (b: Block)
    ensures b.name == name && b.memo == "" && b.start == start && b.end == end
    ensures subSpace ==> b.subBlocks == Some([])
    ensures !subSpace ==> b.subBlocks.None?
  {
    Block(name, "", start, end, if subSpace then Some([]) else None)
  }

  const PreviewName: string := "TimeBlock Preview Title"

  /** `TimeBlock.preview`: the stand-in the app creates and then renames. */
  function Preview(now: int): (b: Block)
    ensures b.start == now && IsRunning(b) && b.memo == "" && b.subBlocks == Some([])
  {
    NewTimeBlock(PreviewName, now)
  }

  /** The laps as stored; a missing lap list reads as empty. */
  function Subs(b: Block): seq<Block> {
    b.subBlocks.GetOr([])
  }

  function Starts(bs: seq<Block>): (r: seq<int>)
    ensures |r| == |bs| && forall i :: 0 <= i < |bs| ==> r[i] == bs[i].start
  {
    seq(|bs|, i requires 0 <= i < |bs| => bs[i].start)
  }

  /** `bs` sorted by startTime, stably. */
  function ByStart(bs: seq<Block>): (r: seq<Block>)
    ensures |r| == |bs|
    ensures forall p, q :: 0 <= p < q < |r| ==> r[p].start <= r[q].start
    ensures exists order :: IsStableOrder(Starts(bs), order) && |order| == |r|
                            && forall p :: 0 <= p < |r| ==> r[p] == bs[order[p]]
  {
    var order := StableOrder(Starts(bs));
    var r := seq(|bs|, p requires 0 <= p < |bs| => bs[order[p]]);
    assert forall p, q :: 0 <= p < q < |r| ==> Before(Starts(bs), order[p], order[q]);
    r
  }

  function Names(bs: seq<Block>): (r: seq<string>)
    ensures |r| == |bs| && forall i :: 0 <= i < |bs| ==> r[i] == bs[i].name
  {
    seq(|bs|, i requires 0 <= i < |bs| => bs[i].name)
  }

  /** Position, in the stored lap list, of the last lap by startTime
      (`subBlocks.last` after `refreshSubBlocks`). */
  function LastSubIndex(b: Block): (k: nat)
    requires |Subs(b)| > 0
    ensures k < |Subs(b)|
  {
    LastIndex(Starts(Subs(b)))
  }

  /** A block is shown as running iff it has no endTime. */
  predicate IsRunning(b: Block) {
    b.end.None?
  }

  // ---------------------------------------------------------------------
  // Duration

  datatype Span = Span(lower: int, upper: int)

  /** `duration`: the closed range from startTime to endTime, or to `now`
      while running. A closed range whose bounds are out of order cannot be
      formed (the source traps); that case is None. */
  function Duration(b: Block, now: int): (r: Option<Span>)
    ensures r.Some? <==> b.start <= b.end.GetOr(now)
    ensures r.Some? ==> r.value.lower == b.start && r.value.lower <= r.value.upper
    ensures r.Some? && b.end.Some? ==> r.value.upper == b.end.value
    ensures r.Some? && b.end.None? ==> r.value.upper == now
  {
    var upper := b.end.GetOr(now);
    if b.start <= upper then Some(Span(b.start, upper)) else None
  }

  // ---------------------------------------------------------------------
  // Invariants

  /** A closed block did not end before it started. */
  predicate WellTimed(b: Block) {
    b.end.Some? ==> b.start <= b.end.value
  }

  /** A lap: well timed, with an empty lap list of its own. */
  predicate IsLap(b: Block) {
    b.subBlocks == Some([]) && WellTimed(b)
  }

  /** The shape every root block keeps: it has laps; every lap except the
      last by startTime is closed; the root is closed exactly when its last
      lap is, at the same instant; nothing ends before it starts. */
  ghost predicate ValidRoot(b: Block) {
    && b.subBlocks.Some? && |Subs(b)| > 0
    && WellTimed(b)
    && (forall i :: 0 <= i < |Subs(b)| ==> IsLap(Subs(b)[i]))
    && (forall i :: 0 <= i < |Subs(b)| && i != LastSubIndex(b) ==> Subs(b)[i].end.Some?)
    && b.end == Subs(b)[LastSubIndex(b)].end
  }

  /** Under the invariant at most one lap runs, the last by startTime, and
      the root runs exactly when that lap does. */
  lemma ValidRootRunsOnlyLast(b: Block)
    requires ValidRoot(b)
    ensures forall i :: 0 <= i < |Subs(b)| && IsRunning(Subs(b)[i]) ==> i == LastSubIndex(b)
    ensures IsRunning(b) <==> IsRunning(Subs(b)[LastSubIndex(b)])
  {
  }

  /** The clock reads `now` or later at every start in the block. */
  predicate StartedBy(b: Block, now: int) {
    b.start <= now && forall i :: 0 <= i < |Subs(b)| ==> Subs(b)[i].start <= now
  }

  // ---------------------------------------------------------------------
  // Operations

  datatype BlockError = NoSubBlocks

  /** The root block that adding a time block creates: named `name`,
      starting `now`, with one running lap "1번째 판" starting at the same
      instant. */
  function StartedRoot(name: string, now: int): (b: Block)
    ensures b.name == name && b.memo == "" && b.start == now && IsRunning(b)
    ensures |Subs(b)| == 1 && Subs(b)[0].name == LapName.FirstLapName
    ensures Subs(b)[0].start == b.start && IsRunning(Subs(b)[0])
    ensures Subs(b)[0].memo == "" && Subs(b)[0].subBlocks == Some([])
  {
    var lap := Preview(now).(name := LapName.FirstLapName);
    Preview(now).(name := name, subBlocks := Some([lap]))
  }

  /** `endTimeBlock`: the root and its last lap by startTime get the same
      endTime `now`. With no lap, the source traps on `last!`. */
  function EndTimeBlock(b: Block, now: int): (r: Result<Block, BlockError>)
    ensures r.Err? <==> |Subs(b)| == 0
    ensures r.Ok? ==> r.value.end == Some(now)
    ensures r.Ok? ==> r.value.name == b.name && r.value.memo == b.memo && r.value.start == b.start
    ensures r.Ok? ==> r.value.subBlocks.Some? && |Subs(r.value)| == |Subs(b)|
    ensures r.Ok? ==> Subs(r.value)[LastSubIndex(b)] == Subs(b)[LastSubIndex(b)].(end := Some(now))
    ensures r.Ok? ==> forall i :: 0 <= i < |Subs(b)| && i != LastSubIndex(b) ==> Subs(r.value)[i] == Subs(b)[i]
  {
    if |Subs(b)| == 0 then
      Err(NoSubBlocks)
    else
      var k := LastSubIndex(b);
      Ok(b.(end := Some(now), subBlocks := Some(Subs(b)[k := Subs(b)[k].(end := Some(now))])))
  }

  /** The lap names in startTime order, as the view holds them. */
  function NamesByStart(b: Block): seq<string> {
    Names(ByStart(Subs(b)))
  }

  /** `lapSubBlock`: closes the last lap by startTime at `now` and appends a
      new running lap that starts at `newStart`, named from the existing lap
      names. With no lap, the source traps on `last!`. */
  function LapSubBlock(b: Block, now: int, newStart: int): (r: Result<Block, BlockError>)
    ensures r.Err? <==> |Subs(b)| == 0
    ensures r.Ok? ==> r.value.name == b.name && r.value.memo == b.memo
                      && r.value.start == b.start && r.value.end == b.end
    ensures r.Ok? ==> r.value.subBlocks.Some? && |Subs(r.value)| == |Subs(b)| + 1
    ensures r.Ok? ==> Subs(r.value)[LastSubIndex(b)] == Subs(b)[LastSubIndex(b)].(end := Some(now))
    ensures r.Ok? ==> forall i :: 0 <= i < |Subs(b)| && i != LastSubIndex(b) ==> Subs(r.value)[i] == Subs(b)[i]
    ensures r.Ok? ==> var lap := Subs(r.value)[|Subs(b)|];
                      lap.name == LapName.NextLapName(NamesByStart(b)) && lap.memo == ""
                      && lap.start == newStart && IsRunning(lap) && lap.subBlocks == Some([])
  {
    if |Subs(b)| == 0 then
      Err(NoSubBlocks)
    else
      var k := LastSubIndex(b);
      var lap := Preview(newStart).(name := LapName.NextLapName(NamesByStart(b)));
      Ok(b.(subBlocks := Some(Subs(b)[k := Subs(b)[k].(end := Some(now))] + [lap])))
  }

  // ---------------------------------------------------------------------
  // Action gating of the detail view

  datatype DetailAction = EndAction | LapAction

  /** `bottomButtonSet`: an ended root shows only a disabled "종료됨"
      badge; a running root offers ending and lapping. */
  function OfferedActions(b: Block): (r: set<DetailAction>)
    ensures r == {} <==> !IsRunning(b)
    ensures IsRunning(b) ==> EndAction in r && LapAction in r
  {
    if IsRunning(b) then {EndAction, LapAction} else {}
  }

  /** Pressing an offered button of the detail view. */
  function Perform(b: Block, a: DetailAction, now: int, newStart: int): (r: Result<Block, BlockError>)
    requires a in OfferedActions(b)
    ensures ValidRoot(b) ==> r.Ok?
    ensures r.Ok? ==> r.value.name == b.name && r.value.memo == b.memo && r.value.start == b.start
    ensures r.Ok? && a == EndAction ==> !IsRunning(r.value) && OfferedActions(r.value) == {}
    ensures r.Ok? && a == LapAction ==> IsRunning(r.value) && |Subs(r.value)| == |Subs(b)| + 1
  {
    match a
    case EndAction => EndTimeBlock(b, now)
    case LapAction => LapSubBlock(b, now, newStart)
  }

  // ---------------------------------------------------------------------
  // Properties

  /** Changing endTimes leaves the startTimes, hence the lap order and the
      last lap, as they were. */
  lemma SameStartsSameLast(a: seq<Block>, b: seq<Block>)
    requires |a| == |b| && |a| > 0
    requires forall i :: 0 <= i < |a| ==> a[i].start == b[i].start
    ensures Starts(a) == Starts(b)
    ensures LastIndex(Starts(a)) == LastIndex(Starts(b))
  {
  }

  /** A freshly added root block satisfies the root invariant and is running. */
  lemma StartedRootValid(name: string, now: int)
    ensures ValidRoot(StartedRoot(name, now)) && StartedBy(StartedRoot(name, now), now)
  {
    var b := StartedRoot(name, now);
    assert LastSubIndex(b) == 0;
  }

  /** Ending keeps the root invariant and closes the root: the clock has
      passed every start, so no block ends before it began. */
  lemma EndPreservesValid(b: Block, now: int)
    requires ValidRoot(b) && StartedBy(b, now)
    ensures EndTimeBlock(b, now).Ok?
    ensures ValidRoot(EndTimeBlock(b, now).value)
    ensures !IsRunning(EndTimeBlock(b, now).value)
    ensures StartedBy(EndTimeBlock(b, now).value, now)
  {
    var r := EndTimeBlock(b, now).value;
    SameStartsSameLast(Subs(b), Subs(r));
  }

  /** After a lap whose new lap starts no earlier than every existing lap,
      the new lap is the last by startTime. */
  lemma LapAppendsLast(b: Block, now: int, newStart: int)
    requires |Subs(b)| > 0
    requires forall i :: 0 <= i < |Subs(b)| ==> Subs(b)[i].start <= newStart
    ensures LastSubIndex(LapSubBlock(b, now, newStart).value) == |Subs(b)|
  {
    var r := LapSubBlock(b, now, newStart).value;
    var n := |Subs(b)|;
    assert Subs(r) == Subs(r)[..n] + [Subs(r)[n]];
    AppendLatestIsLast(Subs(b), Subs(r)[..n], Subs(r)[n]);
  }

  /** Appending, after blocks with the same startTimes as `before`, a block
      starting no earlier than any of them makes it the last by startTime. */
  lemma AppendLatestIsLast(before: seq<Block>, after: seq<Block>, lap: Block)
    requires |before| == |after|
    requires forall i :: 0 <= i < |before| ==> after[i].start == before[i].start && before[i].start <= lap.start
    ensures LastIndex(Starts(after + [lap])) == |before|
  {
    assert Starts(after + [lap]) == Starts(after) + [lap.start];
    LastIndexAppend(Starts(after), lap.start);
  }

  /** After a lap every lap is well timed, and all but the new one closed. */
  lemma LapClosesAllButNew(b: Block, now: int, newStart: int)
    requires ValidRoot(b) && StartedBy(b, now)
    ensures var r := LapSubBlock(b, now, newStart).value;
            && (forall i :: 0 <= i < |Subs(r)| ==> IsLap(Subs(r)[i]))
            && (forall i :: 0 <= i < |Subs(b)| ==> Subs(r)[i].end.Some?)
  {
    var r := LapSubBlock(b, now, newStart).value;
    var k := LastSubIndex(b);
    forall i | 0 <= i < |Subs(r)| ensures IsLap(Subs(r)[i]) {
      if i == k {
        assert Subs(b)[k].start <= now;
      }
    }
    forall i | 0 <= i < |Subs(b)| ensures Subs(r)[i].end.Some? {
      if i != k {
        assert Subs(r)[i] == Subs(b)[i];
      }
    }
  }

  /** Lapping a running root keeps the root invariant when the new lap
      starts no earlier than the closing instant: the new lap is then the
      last by startTime and the only running one. */
  lemma LapPreservesValid(b: Block, now: int, newStart: int)
    requires ValidRoot(b) && IsRunning(b) && StartedBy(b, now) && now <= newStart
    ensures LapSubBlock(b, now, newStart).Ok?
    ensures ValidRoot(LapSubBlock(b, now, newStart).value)
    ensures IsRunning(LapSubBlock(b, now, newStart).value)
    ensures LastSubIndex(LapSubBlock(b, now, newStart).value) == |Subs(b)|
    ensures StartedBy(LapSubBlock(b, now, newStart).value, newStart)
  {
    LapAppendsLast(b, now, newStart);
    LapClosesAllButNew(b, now, newStart);
  }

  /** Without the ordering condition the invariant breaks: a new lap that
      starts before the last lap is not last by startTime, yet it is the
      one left running. */
  lemma LapBeforeLastStartBreaksInvariant(b: Block, now: int, newStart: int)
    requires ValidRoot(b) && newStart < Subs(b)[LastSubIndex(b)].start
    ensures !ValidRoot(LapSubBlock(b, now, newStart).value)
  {
    var r := LapSubBlock(b, now, newStart).value;
    var n, k := |Subs(b)|, LastSubIndex(b);
    var keys := Starts(Subs(r));
    assert keys[k] == Subs(b)[k].start && keys[n] == newStart;
    assert !Before(keys, k, n);
    assert LastSubIndex(r) != n;
    assert Subs(r)[n].end.None?;
  }

  /** Every offered action keeps the root invariant, given a clock that has
      passed every start and a new lap that starts no earlier than now. */
  lemma PerformPreservesValid(b: Block, a: DetailAction, now: int, newStart: int)
    requires ValidRoot(b) && a in OfferedActions(b) && StartedBy(b, now) && now <= newStart
    ensures Perform(b, a, now, newStart).Ok?
    ensures ValidRoot(Perform(b, a, now, newStart).value)
    ensures StartedBy(Perform(b, a, now, newStart).value, newStart)
  {
    match a
    case EndAction =>
      EndPreservesValid(b, now);
      var r := EndTimeBlock(b, now).value;
      assert forall i :: 0 <= i < |Subs(r)| ==> Subs(r)[i].start <= newStart;
    case LapAction =>
      LapPreservesValid(b, now, newStart);
  }

  /** Once ended, a root offers no action, so it is neither ended again
      nor lapped. */
  lemma EndedOffersNothing(b: Block, now: int)
    requires |Subs(b)| > 0
    ensures OfferedActions(EndTimeBlock(b, now).value) == {}
  {
  }

  /** Under the invariant the duration of every block is a proper range:
      the upper bound is never below startTime, also while running. */
  lemma DurationWellFormed(b: Block, now: int)
    requires ValidRoot(b) && StartedBy(b, now)
    ensures Duration(b, now).Some?
    ensures forall i :: 0 <= i < |Subs(b)| ==> Duration(Subs(b)[i], now).Some?
  {
  }
}

=== FILE: wrappers.dfy ===
/** Optional values and fallible results, standing in for Swift's `Optional`
    and for the force-unwrap traps of the app. */
module Wrappers {

  datatype Option<+T> = None | Some(value: T) {

    /** The wrapped value, or `default` when absent (Swift's `??`). */
    function GetOr(default: T): T {
      match this
      case Some(v) => v
      case None => default
    }
  }

  datatype Result<+T, +E> = Ok(value: T) | Err(error: E)
}
